=== FILE: README.md ===
# Product price comparator — verified model of the search core

The comparator is a single React component (`src/main.jsx`). A user types a
product name and clicks "Compare Prices". The component asks its backend for
one quote per marketplace (a display price and a link). It shows a card per
store and an "estimated profit margin", and it keeps the last ten distinct successful
searches as buttons. Almost all of the component is markup and browser glue.
This project models, in Dafny, the three pieces of logic inside that glue:

- **Search-history rotation** (line 32): `[...new Set([query, ...prev])].slice(0, 10)`.
  `SearchHistory.Rotate` is that expression: `SearchHistory.Dedup` is the
  `Set` in insertion order and `Seqs.Take` is the `slice`. They are built on
  the sequence vocabulary in `Seqs` (`NoDup`, `Subseq`, `Filter`, `Remove`).
- **Price cleaning, parsing and the margin** (`calculateProfitMargin`, lines 40-45).
  `PriceParser.PriceValue` is one store's `parseFloat(p.price.replace(...))`:
  `PriceParser.Clean` strips every character except digits and `.`, and
  `PriceParser.ParseFloat` reads the cleaned text, which holds only digits
  and points, the way `parseFloat` does.
  `ProfitMargin.CalculateProfitMargin` is the whole function. It maps
  `PriceValue` over the stores (`ProfitMargin.PriceValues`) and hands the
  numbers to `ProfitMargin.MarginOf`, which takes `min`, `max` and
  `(max - min) / min * 100`.
- **The effect of one search on component state** (`fetchComparison`, lines 24-38).
  Module `Session` reduces the network call to an outcome, `Ok(payload)` or
  `Fail`. The search is then a transition over the state record
  (query, results, history, loading, error). `Session.Mount` is the state
  the hooks start with (lines 6-16). `Session.StartFetch` is the request
  being sent, and `Session.SettleFetch` is the request settling.
  `Session.FetchComparison` is the two steps together.

Numbers are exact `real`s, not IEEE-754 doubles. The cases that leave the
reals even in exact arithmetic are kept as explicit values. These are a price
with no number in it, an empty payload and a lowest price of zero.
`ProfitMargin.MarginValue` is `Finite(percent) | PosInfinity | NaN`, and a
price that `parseFloat` reads as NaN is `None`. A JSON object of quotes is modelled by its entries in
enumeration order (`Quotes.Results`). `ProfitMargin.MinMaxIgnoreOrder` shows
that this order does not matter.

The model follows the code as written. In particular:

- The query is recorded exactly as typed. It is not trimmed, and an empty or
  all-blank query is searched and recorded like any other.
- There is no guard for a lowest price of zero. The margin is Infinity when
  some other price is positive and NaN when every price is zero.
- A price with no number in it makes the whole margin NaN. No error is raised.
- An empty payload gives NaN (`Math.min()` is Infinity and `Math.max()` is
  -Infinity). The component never displays it, because the margin line is
  guarded by "results non-empty".
- A single store with a positive price gives a margin of exactly 0. It is not
  reported as undefined. A single store priced "$0.00", or one whose price has
  no digit, gives NaN like any other such payload.
- Responses are not tagged with sequence numbers. A failed search leaves the
  previous results and history in place.

## Model

| member | source | states |
|---|---|---|
| SearchHistory.Dedup | src/main.jsx:32 | The entries of `new Set(list)` contain no duplicate, and they are exactly the elements of the list. |
| SearchHistory.InsertionOrderSet | src/main.jsx:32 | Building the Set with one pass and a seen-set, appending each unseen element, gives the insertion-order list `Dedup`. |
| SearchHistory.DedupSubseq | src/main.jsx:32 | The Set keeps the relative order of the list: its entries are a subsequence of the list. |
| SearchHistory.DedupOfNoDup | src/main.jsx:32 | A list without duplicates passes through the Set unchanged. |
| SearchHistory.DedupCons | src/main.jsx:32 | The Set keeps the first occurrence of each element: building it from `[query, ...prev]` equals putting `query` in front of the Set built from `prev` with every later copy of `query` removed. |
| SearchHistory.RotateBoundedHead | src/main.jsx:32 | The rotated history has at most 10 entries and no duplicates. It is non-empty, and its first entry is the query as typed (even empty), which occurs nowhere else. |
| SearchHistory.RotateKeepsOrder | src/main.jsx:32 | Every rotated entry is the query or an old entry. The old entries that are kept appear in their original relative order. |
| SearchHistory.RotateDropsNothingWhenShort | src/main.jsx:32 | With fewer than 10 previous entries, no old entry is lost. |
| SearchHistory.RotateIsMoveToFront | src/main.jsx:32 | For a duplicate-free history, rotation is "delete the query wherever it is, prepend it, keep the first 10". |
| SearchHistory.RotateFixesHead | src/main.jsx:32 | Searching again for the newest entry of a valid history leaves it unchanged. |
| SearchHistory.RotateIdempotent | src/main.jsx:32 | Rotating twice with the same query equals rotating once. |
| SearchHistory.NewQueryGoesFirst | src/main.jsx:32 | Searching "laptop" with history ["phone"] gives ["laptop", "phone"]. |
| SearchHistory.RepeatedQueryMovesToFront | src/main.jsx:32 | Searching "phone" with history ["laptop", "phone"] gives ["phone", "laptop"]: the entry moves, it is not duplicated. |
| PriceParser.CleanKeepsPriceChars | src/main.jsx:41 | `replace(/[^\d.]/g, "")` keeps only digits and points. Each digit and point is kept as often as it occurs, and the kept characters stay in their original order. |
| PriceParser.CleanIdempotent | src/main.jsx:41 | Cleaning a cleaned price changes nothing. |
| PriceParser.LeadingDigits | src/main.jsx:41 | The count of leading ASCII digits: all characters before it are digits and the character at it is not. |
| PriceParser.ParseFloat | src/main.jsx:41 | `parseFloat` on cleaned text is NaN exactly when the text starts with neither a digit nor a point followed by a digit. Any number it reads is non-negative. |
| PriceParser.PriceValue | src/main.jsx:41 | A price without any digit reads as NaN. A price that reads as a number reads as a non-negative one. |
| PriceParser.ParseFloatDecimal | src/main.jsx:41 | On cleaned text (digits and points only), digits, a point and digits are read as that decimal, and a second point and everything after it are ignored. |
| PriceParser.ParseFloatInteger | src/main.jsx:41 | On cleaned text (digits and points only), digits running to the end of the text are read as that whole number. |
| PriceParser.ParseFloatNat | src/main.jsx:41 | Round trip: every natural number written in decimal is read back as itself. |
| PriceParser.WholeDollarPrice | src/main.jsx:41 | Any price written as "$", whole dollars and ".00" reads as that number of dollars. |
| PriceParser.DollarPrice | src/main.jsx:41 | "$10.00" reads as 10. |
| PriceParser.ThousandsSeparatorPrice | src/main.jsx:41 | "$1,234.56" reads as 1234.56, because the comma is stripped. |
| PriceParser.EuropeanPriceMisread | src/main.jsx:41 | "1.234,56" reads as 1.23456: a European-formatted price is misread. |
| ProfitMargin.MinOf | src/main.jsx:42 | `Math.min` returns one of the values, and it is at most every value. |
| ProfitMargin.MaxOf | src/main.jsx:43 | `Math.max` returns one of the values, and it is at least every value. |
| ProfitMargin.MinMaxIgnoreOrder | src/main.jsx:41-43 | Min and max depend only on the multiset of prices, not on the order in which the object lists its stores. |
| ProfitMargin.MarginZeroIffAllEqual | src/main.jsx:44 | With a positive minimum, the margin is at least 0. It is 0 exactly when all values are equal, which includes a single store. |
| ProfitMargin.MarginIsLargestGap | src/main.jsx:42-44 | The margin is the largest gap between two stores' prices, relative to the cheaper one. The cheapest and the dearest store reach it. |
| ProfitMargin.MarginExample | src/main.jsx:44 | Prices 10 and 20 give a margin of 100. |
| ProfitMargin.DollarMarginExample | src/main.jsx:40-45 | End to end, from the payload: stores quoting "$10.00" and "$20.00" give a margin of 100. |
| ProfitMargin.FreeItemMarginExample | src/main.jsx:40-45 | End to end: stores quoting "$0.00" and "$5.00" give Infinity, because the lowest price is 0. |
| ProfitMargin.MarginKind | src/main.jsx:40-45 | In exact arithmetic, the margin is finite exactly when there is a store and every price is positive. It is Infinity exactly when every price parses, one is 0 and one is positive. It is NaN exactly when there is no store, some price does not parse, or every price is 0. |
| ProfitMargin.MarginFinite | src/main.jsx:40-45 | A finite margin is at least 0. It is 0 exactly when all stores read the same price, and no pair of stores has a larger relative gap. |
| Session.StartFetch | src/main.jsx:25-26 | Sending the request sets loading and clears the error. Query, results and history are untouched. |
| Session.FetchComparison | src/main.jsx:24-38 | Loading always ends false. On failure, results and history are unchanged and the error is the fixed message. On success, the results are the payload with nothing merged in and the error is empty. The history is the old history rotated with the query, so it is bounded, starts with the query, and holds only the query and old entries. |
| Session.ShownMargin | src/main.jsx:86-91 | The margin line is shown exactly when the results are non-empty. It shows a finite number exactly when every store's price is positive. |
| Session.FetchKeepsHistoryValid | src/main.jsx:32 | After a successful search the history is valid (at most 10 entries, no duplicates) whatever was loaded. A valid history stays valid through any search. |
| Session.FailThenOk | src/main.jsx:24-38 | A failed search followed by a successful one ends in the same state as the successful one alone. |
| Session.RepeatSearchKeepsHistory | src/main.jsx:24-38 | Repeating a successful search for the same query leaves the history as the first search left it. |
| Session.LaptopPhoneScenario | src/main.jsx:24-38 | From history ["phone"], searching "laptop" gives ["laptop", "phone"]. Searching "phone" after that gives ["phone", "laptop"]. |

## Left out

- JSX rendering, styling and the root mount (src/main.jsx:47-99). These are markup with no logic. The one guard they hold, the non-empty check before the margin line, is `Session.ShownMargin`.
- Loading and saving the history in `localStorage` with `JSON.parse`/`JSON.stringify` (src/main.jsx:10-22). This is browser storage. `Session.Mount` takes the loaded list as a parameter. A saved value that is not valid JSON, which makes the source throw, is not modelled.
- The HTTP request, `encodeURIComponent`, the `response.ok` check and `response.json()` (src/main.jsx:28-30). These are network plumbing, so only their outcome (`Ok(payload)` or `Fail`) is kept.
- The asynchronous order of `setLoading`, `setError` and `finally`, and React's batched state updates. One search is a single step from the state before the click to the state after the request settles. Overlapping searches and late responses are not modelled.
- The history buttons (src/main.jsx:67) call `setQuery(item)` and then `fetchComparison()`. Because of React's closure semantics, that fetch still sees the previous query. This is a framework timing effect and is not modelled. `Session.EditQuery` followed by `Session.FetchComparison` models the intended sequence.
- IEEE-754 details: rounding in `parseFloat` and in `(max - min) / min * 100`, and `toFixed(2)` formatting (src/main.jsx:41-44, 89). The model uses exact reals, with Infinity and NaN kept as explicit cases.
- Overflow and underflow of doubles are not modelled. These are `parseFloat` overflowing to Infinity on a price with more than about 308 integer digits, `parseFloat` underflowing to 0 on a price below about 1e-324, and `(max - min) / min * 100` overflowing. On such payloads JavaScript gives Infinity where `ProfitMargin.MarginKind` reports a finite margin.
- Payloads and saved histories of another shape. The model assumes the payload is an object whose every value has a string `price`. It also assumes the saved history is an array of strings. A value without a string price (`{"ebay": {"price": 12.5}}`, `{"ebay": null}`) makes `p.price.replace` throw while rendering (src/main.jsx:41). A `null` body makes `Object.keys(results)` throw (src/main.jsx:75). A saved history that is valid JSON but not an array (`{}`, `null`) makes `...prev` throw (src/main.jsx:32). None of these throwing paths is modelled.
- The uniqueness of store names in the payload. A JSON object guarantees it, and none of the modelled logic depends on it.
- ParseFloat: models `parseFloat` only on text of digits and points, the only text line 41 hands it. Exponents ("5e3"), signs, leading blanks and "Infinity" are not modelled. `ParseFloatDecimal` and `ParseFloatInteger` say nothing about tails that hold other characters.
- PriceValue: its contract only says that a price without digits is NaN and that values are non-negative. The exact reading of a cleaned price is stated by `ParseFloat`, `ParseFloatDecimal`, `ParseFloatInteger` and `CleanKeepsPriceChars`.

=== FILE: history.dfy ===
/** The search-history update of `fetchComparison`: the new query is put in
    front of the previous history, a JavaScript `Set` built from that list
    drops every repeated entry after its first occurrence, and the result is
    cut to ten entries. The query is recorded verbatim: it is not trimmed and
    an empty query is recorded like any other. */
module SearchHistory {
  import opened Seqs

  /** The `slice(0, 10)` bound. */
  const MaxEntries: nat := 10

  /** The entries of a JavaScript `Set` built from `s`, in insertion order:
      an element is appended the first time it is seen and ignored after. */
  function Dedup<T(==,!new)>(s: seq<T>): (r: seq<T>)
    ensures NoDup(r)
    ensures forall x :: x in r <==> x in s
    decreases |s|
  {
    if |s| == 0 then []
    else
      var s' := s[..|s| - 1];
      var x := s[|s| - 1];
      assert s == s' + [x];
      var d := Dedup(s');
      if x in d then d else d + [x]
  }

  /** The Set's entries are a subsequence of the list, in its order. */
  lemma {:induction false} DedupSubseq<T(!new)>(s: seq<T>)
    ensures Subseq(Dedup(s), s)
    decreases |s|
  {
    if |s| > 0 {
      var s' := s[..|s| - 1];
      var x := s[|s| - 1];
      DedupSubseq(s');
      var d := Dedup(s');
      if x !in d {
        assert (d + [x])[..|d|] == d;
      }
    }
  }

  /** A duplicate-free list passes through the Set unchanged. */
  lemma {:induction false} DedupOfNoDup<T(!new)>(s: seq<T>)
    requires NoDup(s)
    ensures Dedup(s) == s
    decreases |s|
  {
    if |s| > 0 {
      var s' := s[..|s| - 1];
      assert NoDup(s');
      DedupOfNoDup(s');
      assert s == s' + [s[|s| - 1]];
    }
  }

  /** Adding one element at the end of the source list. */
  lemma DedupSnoc<T(!new)>(s: seq<T>, x: T)
    ensures Dedup(s + [x]) == if x in s then Dedup(s) else Dedup(s) + [x]
  {
    assert (s + [x])[..|s + [x]| - 1] == s;
  }

  /** One step of `DedupCons`: extending the source list at the end keeps
      the front-insertion view. */
  lemma DedupConsStep<T(!new)>(q: T, s: seq<T>, x: T)
    requires Dedup([q] + s) == [q] + Dedup(Remove(s, q))
    ensures Dedup([q] + s + [x]) == [q] + Dedup(Remove(s + [x], q))
  {
    DedupSnoc([q] + s, x);
    RemoveSnoc(s, x, q);
    if x == q {
      DedupConsStepRepeat(q, s);
    } else {
      DedupConsStepOther(q, s, x);
    }
  }

  lemma DedupConsStepRepeat<T(!new)>(q: T, s: seq<T>)
    requires Dedup([q] + s) == [q] + Dedup(Remove(s, q))
    ensures Dedup([q] + s + [q]) == [q] + Dedup(Remove(s + [q], q))
  {
    DedupSnoc([q] + s, q);
    assert q in [q] + s;
    RemoveSnoc(s, q, q);
    assert Remove(s, q) + [] == Remove(s, q);
  }

  lemma DedupConsStepOther<T(!new)>(q: T, s: seq<T>, x: T)
    requires x != q
    requires Dedup([q] + s) == [q] + Dedup(Remove(s, q))
    ensures Dedup([q] + s + [x]) == [q] + Dedup(Remove(s + [x], q))
  {
    RemoveSnoc(s, x, q);
    if x in s {
      assert x in Remove(s, q);
      StepSeen(q, s, x);
    } else {
      assert x !in Remove(s, q);
      StepNew(q, s, x);
    }
  }

  lemma StepSeen<T(!new)>(q: T, s: seq<T>, x: T)
    requires x != q && x in Remove(s, q)
    requires Dedup([q] + s) == [q] + Dedup(Remove(s, q))
    requires Remove(s + [x], q) == Remove(s, q) + [x]
    ensures Dedup([q] + s + [x]) == [q] + Dedup(Remove(s + [x], q))
  {
    var rest := Remove(s, q);
    calc {
      Dedup([q] + s + [x]);
      { assert x in [q] + s; DedupSnoc([q] + s, x); }
      Dedup([q] + s);
      [q] + Dedup(rest);
      { DedupSnoc(rest, x); }
      [q] + Dedup(rest + [x]);
    }
  }

  lemma StepNew<T(!new)>(q: T, s: seq<T>, x: T)
    requires x != q && x !in s && x !in Remove(s, q)
    requires Dedup([q] + s) == [q] + Dedup(Remove(s, q))
    requires Remove(s + [x], q) == Remove(s, q) + [x]
    ensures Dedup([q] + s + [x]) == [q] + Dedup(Remove(s + [x], q))
  {
    var rest := Remove(s, q);
    DedupSnoc([q] + s, x);
    DedupSnoc(rest, x);
    AppendAssoc([q], Dedup(rest), [x]);
  }

  /** Set insertion order seen from the front: the first element stays first
      and every later copy of it is dropped, so building the Set from
      `[q] + s` is the same as deleting `q` from `s`, building the Set and
      putting `q` in front. */
  lemma {:induction false} DedupCons<T(!new)>(q: T, s: seq<T>)
    ensures Dedup([q] + s) == [q] + Dedup(Remove(s, q))
    decreases |s|
  {
    if |s| == 0 {
      assert [q] + s == [] + [q];
      DedupSnoc([], q);
      RemoveSnoc([], q, q);
      assert Remove(s, q) == [];
    } else {
      var s' := s[..|s| - 1];
      var x := s[|s| - 1];
      assert s == s' + [x];
      assert [q] + s == [q] + s' + [x];
      DedupCons(q, s');
      DedupConsStep(q, s', x);
    }
  }

  /** `[...new Set(xs)]` computed the way the Set constructor does it: walk
      the list once and append each element not seen before. */
  method InsertionOrderSet<T(==,!new)>(xs: seq<T>) returns (r: seq<T>)
    ensures r == Dedup(xs)
  {
    r := [];
    var seen: set<T> := {};
    var i := 0;
    while i < |xs|
      invariant 0 <= i <= |xs|
      invariant r == Dedup(xs[..i])
      invariant forall x :: x in seen <==> x in r
    {
      assert xs[..i + 1][..i] == xs[..i];
      if xs[i] !in seen {
        r := r + [xs[i]];
        seen := seen + {xs[i]};
      }
      i := i + 1;
    }
    assert xs[..i] == xs;
  }

  /** A history as the component keeps it once it has searched: at most ten
      entries, none repeated. */
  predicate Valid(h: seq<string>) {
    |h| <= MaxEntries && NoDup(h)
  }

  /** `[...new Set([query, ...prev])].slice(0, 10)`. */
  function Rotate(prev: seq<string>, query: string): seq<string> {
    Take(Dedup([query] + prev), MaxEntries)
  }

  /** The rotated history is never longer than ten entries, holds no
      duplicate, and starts with the query exactly as typed, which occurs
      nowhere else in it. */
  lemma RotateBoundedHead(prev: seq<string>, query: string)
    ensures Valid(Rotate(prev, query))
    ensures |Rotate(prev, query)| > 0 && Rotate(prev, query)[0] == query
    ensures forall i :: 0 < i < |Rotate(prev, query)| ==> Rotate(prev, query)[i] != query
  {
    var d := Dedup([query] + prev);
    DedupCons(query, prev);
    assert d[0] == query;
    var r := Rotate(prev, query);
    assert r == d[..|r|];
    forall i | 0 < i < |r|
      ensures r[i] != query
    {
      assert d[0] != d[i];
    }
  }

  /** Every entry of the rotated history is the query or an entry of `prev`,
      and the entries kept from `prev` appear in their original order. */
  lemma RotateKeepsOrder(prev: seq<string>, query: string)
    ensures forall x :: x in Rotate(prev, query) ==> x == query || x in prev
    ensures |Rotate(prev, query)| > 0 && Subseq(Rotate(prev, query)[1..], prev)
  {
    var rest := Remove(prev, query);
    var kept := Dedup(rest);
    DedupCons(query, prev);
    DedupSubseq(rest);
    SubseqTrans(kept, rest, prev);
    var r := Rotate(prev, query);
    assert r == Take([query] + kept, MaxEntries);
    assert r[1..] == kept[..|r| - 1];
    PrefixIsSubseq(kept, |r| - 1);
    SubseqTrans(r[1..], kept, prev);
    SubseqElems(r[1..], prev);
    assert r == [query] + r[1..];
  }

  /** Nothing is dropped while fewer than ten entries were stored before. */
  lemma RotateDropsNothingWhenShort(prev: seq<string>, query: string)
    requires |prev| < MaxEntries
    ensures forall x :: x in prev ==> x in Rotate(prev, query)
  {
    var rest := Remove(prev, query);
    var kept := Dedup(rest);
    DedupCons(query, prev);
    DedupSubseq(rest);
    SubseqElems(kept, rest);
    SubseqElems(rest, prev);
    assert Rotate(prev, query) == [query] + kept;
  }

  /** Under the invariant the history keeps, the Set expression is exactly
      "delete the query wherever it is, put it in front, keep ten". */
  lemma RotateIsMoveToFront(prev: seq<string>, query: string)
    requires NoDup(prev)
    ensures Rotate(prev, query) == Take([query] + Remove(prev, query), MaxEntries)
  {
    DedupCons(query, prev);
    SubseqNoDup(Remove(prev, query), prev);
    DedupOfNoDup(Remove(prev, query));
  }

  /** Searching again for the most recent entry leaves a valid history as it is. */
  lemma RotateFixesHead(h: seq<string>)
    requires Valid(h) && |h| > 0
    ensures Rotate(h, h[0]) == h
  {
    RotateIsMoveToFront(h, h[0]);
    RemoveHead(h);
    assert [h[0]] + h[1..] == h;
  }

  /** Rotating twice with the same query equals rotating once. */
  lemma RotateIdempotent(h: seq<string>, query: string)
    ensures Rotate(Rotate(h, query), query) == Rotate(h, query)
  {
    RotateBoundedHead(h, query);
    RotateFixesHead(Rotate(h, query));
  }

  /** A new query goes in front of the existing entries. */
  lemma NewQueryGoesFirst()
    ensures Rotate(["phone"], "laptop") == ["laptop", "phone"]
  {
    calc {
      Rotate(["phone"], "laptop");
      { RotateIsMoveToFront(["phone"], "laptop"); }
      Take(["laptop"] + Remove(["phone"], "laptop"), MaxEntries);
      { RemoveSnoc([], "phone", "laptop");
        assert Remove([], "laptop") == [];
        assert [] + ["phone"] == ["phone"]; }
      Take(["laptop"] + ["phone"], MaxEntries);
    }
  }

  /** A query already in the history moves to the front and is not repeated. */
  lemma RepeatedQueryMovesToFront()
    ensures Rotate(["laptop", "phone"], "phone") == ["phone", "laptop"]
  {
    RemoveSecondOfTwo("laptop", "phone");
    assert NoDup(["laptop", "phone"]);
    RotateIsMoveToFront(["laptop", "phone"], "phone");
    assert ["phone"] + ["laptop"] == ["phone", "laptop"];
  }

  lemma RemoveSecondOfTwo(a: string, b: string)
    requires a != b
    ensures Remove([a, b], b) == [a]
  {
    RemoveSnoc([], a, b);
    assert Remove([], b) == [];
    assert [] + [a] == [a];
    RemoveSnoc([a], b, b);
    assert [a] + [b] == [a, b];
  }
}

=== FILE: margin.dfy ===
/** `calculateProfitMargin`: every store's price is cleaned and parsed, then
    `(max - min) / min * 100` is taken over the parsed values.

    Arithmetic is on exact reals, an abstraction of IEEE-754 doubles. The
    cases that leave the reals even in exact arithmetic are kept visible
    instead: a price
    that does not parse makes `Math.min` and `Math.max` NaN and so the
    margin NaN; an empty payload gives `Math.min()` = Infinity and
    `Math.max()` = -Infinity, hence NaN; a lowest price of zero divides by
    zero, which is Infinity when some price is positive and NaN (0 / 0)
    when all are zero. Overflow and underflow of doubles are not modelled. */
module ProfitMargin {
  import opened Wrappers
  import opened PriceParser
  import opened Quotes

  /** The three kinds of number the margin expression can produce. */
  datatype MarginValue = Finite(percent: real) | PosInfinity | NaN

  /** `Math.min(...values)` over values that are all numbers. */
  function MinOf(vs: seq<real>): (m: real)
    requires |vs| > 0
    ensures m in vs
    ensures forall i :: 0 <= i < |vs| ==> m <= vs[i]
    decreases |vs|
  {
    if |vs| == 1 then vs[0]
    else
      var rest := MinOf(vs[1..]);
      if vs[0] <= rest then vs[0] else rest
  }

  /** `Math.max(...values)` over values that are all numbers. */
  function MaxOf(vs: seq<real>): (m: real)
    requires |vs| > 0
    ensures m in vs
    ensures forall i :: 0 <= i < |vs| ==> vs[i] <= m
    decreases |vs|
  {
    if |vs| == 1 then vs[0]
    else
      var rest := MaxOf(vs[1..]);
      if vs[0] >= rest then vs[0] else rest
  }

  /** Every value is positive: the precondition of the finite margin,
      stated over the numbers once no price is NaN. */
  predicate AllPositive(vs: seq<real>) {
    forall i :: 0 <= i < |vs| ==> vs[i] > 0.0
  }

  predicate AllEqual(vs: seq<real>) {
    forall i, j :: 0 <= i < |vs| && 0 <= j < |vs| ==> vs[i] == vs[j]
  }

  /** `(max - min) / min * 100` when the lowest value is positive. */
  function Margin(vs: seq<real>): real
    requires |vs| > 0 && AllPositive(vs)
  {
    var lo := MinOf(vs);
    (MaxOf(vs) - lo) / lo * 100.0
  }

  /** The margin is never negative, and it is zero exactly when every store
      quotes the same value (a single store included). */
  lemma MarginZeroIffAllEqual(vs: seq<real>)
    requires |vs| > 0 && AllPositive(vs)
    ensures Margin(vs) >= 0.0
    ensures Margin(vs) == 0.0 <==> AllEqual(vs)
  {
    var lo := MinOf(vs);
    var hi := MaxOf(vs);
    assert lo > 0.0;
    assert hi >= lo;
    assert Margin(vs) == (hi - lo) / lo * 100.0;
    if AllEqual(vs) {
      assert hi == lo;
    }
    if Margin(vs) == 0.0 {
      assert (hi - lo) / lo == 0.0;
      assert hi - lo == ((hi - lo) / lo) * lo;
      forall i, j | 0 <= i < |vs| && 0 <= j < |vs|
        ensures vs[i] == vs[j]
      {
      }
    }
  }

  /** The margin is the largest relative gap between two stores: no pair of
      prices is further apart, relative to the cheaper one, and the cheapest
      and dearest store are exactly that far apart. */
  lemma MarginIsLargestGap(vs: seq<real>)
    requires |vs| > 0 && AllPositive(vs)
    ensures forall i, j :: 0 <= i < |vs| && 0 <= j < |vs| ==>
      (vs[j] - vs[i]) / vs[i] * 100.0 <= Margin(vs)
    ensures exists i, j ::
      0 <= i < |vs| && 0 <= j < |vs| && (vs[j] - vs[i]) / vs[i] * 100.0 == Margin(vs)
  {
    GapsBounded(vs);
    var lo := MinOf(vs);
    var hi := MaxOf(vs);
    var i :| 0 <= i < |vs| && vs[i] == lo;
    var j :| 0 <= j < |vs| && vs[j] == hi;
    assert (vs[j] - vs[i]) / vs[i] * 100.0 == Margin(vs);
  }

  lemma GapsBounded(vs: seq<real>)
    requires |vs| > 0 && AllPositive(vs)
    ensures forall i, j :: 0 <= i < |vs| && 0 <= j < |vs| ==>
      (vs[j] - vs[i]) / vs[i] * 100.0 <= Margin(vs)
  {
    var lo := MinOf(vs);
    var hi := MaxOf(vs);
    assert Margin(vs) == (hi - lo) / lo * 100.0;
    forall i, j | 0 <= i < |vs| && 0 <= j < |vs|
      ensures (vs[j] - vs[i]) / vs[i] * 100.0 <= (hi - lo) / lo * 100.0
    {
      GapBound(vs[i], vs[j], lo, hi);
    }
  }

  /** The relative gap grows with the dearer price and shrinks with the
      cheaper one. */
  lemma GapBound(a: real, b: real, lo: real, hi: real)
    requires 0.0 < lo <= a && b <= hi && lo <= hi
    ensures (b - a) / a * 100.0 <= (hi - lo) / lo * 100.0
  {
    var x := (b - a) / a;
    var y := (hi - lo) / lo;
    assert x * a == b - a;
    assert y * lo == hi - lo;
    assert y >= 0.0;
  }

  /** `Math.min` and `Math.max` do not depend on the order of their
      arguments, so neither does the margin: the order in which the object
      enumerates its stores is irrelevant. */
  lemma MinMaxIgnoreOrder(a: seq<real>, b: seq<real>)
    requires |a| > 0 && multiset(a) == multiset(b)
    ensures |b| > 0
    ensures MinOf(a) == MinOf(b) && MaxOf(a) == MaxOf(b)
  {
    assert |multiset(b)| == |b|;
    forall x | x in a ensures x in b {
      assert x in multiset(a);
    }
    forall x | x in b ensures x in a {
      assert x in multiset(b);
    }
  }

  /** Two stores at $10 and $20: the dearer is 100% above the cheaper. */
  lemma MarginExample()
    ensures Margin([10.0, 20.0]) == 100.0
  {
    assert MinOf([10.0, 20.0]) == 10.0;
    assert MaxOf([10.0, 20.0]) == 20.0;
  }

  /** End to end: stores quoting "$10.00" and "$20.00" give a margin of
      100%. */
  lemma DollarMarginExample()
    ensures CalculateProfitMargin([Entry("A", Quote("$10.00", "")), Entry("B", Quote("$20.00", ""))])
         == Finite(100.0)
  {
    var results := [Entry("A", Quote("$10.00", "")), Entry("B", Quote("$20.00", ""))];
    DollarPrice();
    TwentyDollars();
    PriceValuesOfTwo(results[0], results[1]);
    assert results == [results[0], results[1]];
    MarginOfTenTwenty();
  }

  lemma MarginOfTenTwenty()
    ensures NonNegative([Some(10.0), Some(20.0)])
    ensures MarginOf([Some(10.0), Some(20.0)]) == Finite(100.0)
  {
    NumbersOfTwo(10.0, 20.0);
    MarginExample();
  }

  /** End to end: a store quoting "$0.00" next to one quoting "$5.00"
      divides by a zero minimum, and the margin is Infinity. */
  lemma FreeItemMarginExample()
    ensures CalculateProfitMargin([Entry("A", Quote("$0.00", "")), Entry("B", Quote("$5.00", ""))])
         == PosInfinity
  {
    var results := [Entry("A", Quote("$0.00", "")), Entry("B", Quote("$5.00", ""))];
    ZeroDollars();
    FiveDollars();
    PriceValuesOfTwo(results[0], results[1]);
    assert results == [results[0], results[1]];
    MarginOfZeroFive();
  }

  lemma MarginOfZeroFive()
    ensures NonNegative([Some(0.0), Some(5.0)])
    ensures MarginOf([Some(0.0), Some(5.0)]) == PosInfinity
  {
    NumbersOfTwo(0.0, 5.0);
    assert [0.0, 5.0][0] == 0.0;
    assert MaxOf([0.0, 5.0]) == 5.0;
  }

  lemma PriceValuesOfTwo(e1: Entry, e2: Entry)
    ensures PriceValues([e1, e2]) == [PriceValue(e1.quote.price), PriceValue(e2.quote.price)]
  {
  }

  lemma NumbersOfTwo(x: real, y: real)
    ensures Numbers([Some(x), Some(y)]) == Some([x, y])
  {
    var ps := [Some(x), Some(y)];
    assert ps[0].Some? && ps[1].Some?;
    var r := Numbers(ps);
    assert ps[0] == Some(r.value[0]) && ps[1] == Some(r.value[1]);
    assert r.value == [x, y];
  }

  /** `Object.values(prices).map((p) => parseFloat(...))`: the number read
      from each store's price, NaN as `None`, in enumeration order. */
  function PriceValues(results: Results): (ps: seq<Option<real>>)
    ensures |ps| == |results|
    ensures forall i :: 0 <= i < |results| ==> ps[i] == PriceValue(results[i].quote.price)
  {
    seq(|results|, i requires 0 <= i < |results| => PriceValue(results[i].quote.price))
  }

  /** Parsed prices are never negative: cleaning strips every sign. */
  predicate NonNegative(ps: seq<Option<real>>) {
    forall i :: 0 <= i < |ps| ==> ps[i].Some? ==> ps[i].value >= 0.0
  }

  /** The values when none is NaN. */
  function Numbers(ps: seq<Option<real>>): (r: Option<seq<real>>)
    ensures r.Some? <==> forall i :: 0 <= i < |ps| ==> ps[i].Some?
    ensures r.Some? ==> |r.value| == |ps|
    ensures r.Some? ==> forall i :: 0 <= i < |ps| ==> ps[i] == Some(r.value[i])
    decreases |ps|
  {
    if |ps| == 0 then Some([])
    else
      match ps[0]
      case None => None
      case Some(v) =>
        match Numbers(ps[1..])
        case None => None
        case Some(vs) => Some([v] + vs)
  }

  /** `((max - min) / min) * 100` over the parsed values, with the IEEE
      special values the expression yields outside the positive reals. */
  function MarginOf(ps: seq<Option<real>>): MarginValue
    requires NonNegative(ps)
  {
    match Numbers(ps)
    case None => NaN
    case Some(vs) =>
      if |vs| == 0 then NaN
      else if AllPositive(vs) then Finite(Margin(vs))
      else if MaxOf(vs) > 0.0 then PosInfinity
      else NaN
  }

  /** `calculateProfitMargin(prices)` in exact arithmetic. */
  function CalculateProfitMargin(results: Results): MarginValue {
    var ps := PriceValues(results);
    assert NonNegative(ps);
    MarginOf(ps)
  }

  /** No store's price is NaN, so `Numbers(ps)` is defined. */
  predicate AllParse(ps: seq<Option<real>>) {
    forall i :: 0 <= i < |ps| ==> ps[i].Some?
  }

  /** Every parsed price is a number and positive. */
  predicate AllPositivePrices(ps: seq<Option<real>>) {
    forall i :: 0 <= i < |ps| ==> ps[i].Some? && ps[i].value > 0.0
  }

  /** `AllPositivePrices` over a payload's parsed prices. */
  predicate AllPricesPositive(results: Results) {
    AllPositivePrices(PriceValues(results))
  }

  predicate AllZero(ps: seq<Option<real>>) {
    forall i :: 0 <= i < |ps| ==> ps[i] == Some(0.0)
  }

  predicate SomeZero(ps: seq<Option<real>>) {
    exists i :: 0 <= i < |ps| && ps[i] == Some(0.0)
  }

  predicate SomePositive(ps: seq<Option<real>>) {
    exists i :: 0 <= i < |ps| && ps[i].Some? && ps[i].value > 0.0
  }

  /** Which kind of number the margin line shows: a finite percentage
      exactly when there is a store and every price parses to a positive
      value; Infinity exactly when every price parses, one is zero and one
      is positive; NaN otherwise (no store, a price with no number in it,
      or every price zero). */
  lemma MarginKind(ps: seq<Option<real>>)
    requires NonNegative(ps)
    ensures MarginOf(ps).Finite? <==> |ps| > 0 && AllPositivePrices(ps)
    ensures MarginOf(ps) == PosInfinity <==> AllParse(ps) && SomeZero(ps) && SomePositive(ps)
    ensures MarginOf(ps) == NaN <==> |ps| == 0 || !AllParse(ps) || AllZero(ps)
  {
  }

  /** A finite margin is never negative, is zero exactly when all stores
      quote the same price, and is the largest gap between two stores'
      prices relative to the cheaper of the two. */
  lemma MarginFinite(ps: seq<Option<real>>)
    requires NonNegative(ps) && MarginOf(ps).Finite?
    ensures MarginOf(ps).percent >= 0.0
    ensures MarginOf(ps).percent == 0.0 <==>
      forall i, j :: 0 <= i < |ps| && 0 <= j < |ps| ==> ps[i] == ps[j]
    ensures forall i, j :: 0 <= i < |ps| && 0 <= j < |ps| ==>
      (ps[j].value - ps[i].value) / ps[i].value * 100.0 <= MarginOf(ps).percent
  {
    var vs := Numbers(ps).value;
    assert MarginOf(ps).percent == Margin(vs);
    MarginZeroIffAllEqual(vs);
    if AllEqual(vs) {
      forall i, j | 0 <= i < |ps| && 0 <= j < |ps|
        ensures ps[i] == ps[j]
      {
        assert vs[i] == vs[j];
      }
    }
    forall i, j | 0 <= i < |ps| && 0 <= j < |ps|
      ensures (ps[j].value - ps[i].value) / ps[i].value * 100.0 <= Margin(vs)
    {
      assert ps[i].value == vs[i] && ps[j].value == vs[j];
      GapBound(vs[i], vs[j], MinOf(vs), MaxOf(vs));
    }
  }
}

=== FILE: price_parser.dfy ===
/** Reading a store's display price the way `calculateProfitMargin` does:
    `parseFloat(price.replace(/[^\d.]/g, ""))`.

    Numbers are exact reals here, not IEEE-754 doubles: `parseFloat` rounds a
    long decimal to the nearest double, the model keeps its exact value. A
    price that JavaScript reads as NaN is `None`. */
module PriceParser {
  import opened Wrappers
  import opened Seqs

  /** `\d` without the Unicode flag: the ASCII digits only. */
  predicate IsDigit(c: char) {
    '0' <= c <= '9'
  }

  /** The characters `/[^\d.]/g` does not match. */
  predicate IsPriceChar(c: char) {
    IsDigit(c) || c == '.'
  }

  /** Strip every character that is not a digit or a decimal point. */
  function Clean(price: string): string {
    Filter(price, IsPriceChar)
  }

  /** Cleaning keeps exactly the digits and points of the input: nothing
      else survives, each of them survives as often as it occurs, and the
      survivors keep their order. */
  lemma CleanKeepsPriceChars(price: string)
    ensures forall i :: 0 <= i < |Clean(price)| ==> IsPriceChar(Clean(price)[i])
    ensures forall c :: multiset(Clean(price))[c] == if IsPriceChar(c) then multiset(price)[c] else 0
    ensures Subseq(Clean(price), price)
  {
    FilterSubseq(price, IsPriceChar);
    forall c
      ensures multiset(Clean(price))[c] == if IsPriceChar(c) then multiset(price)[c] else 0
    {
      FilterCount(price, IsPriceChar, c);
    }
  }

  /** Cleaning a cleaned price changes nothing. */
  lemma CleanIdempotent(price: string)
    ensures Clean(Clean(price)) == Clean(price)
  {
    FilterAllPass(Clean(price), IsPriceChar);
  }

  /** The number of leading digits of `s`. */
  function LeadingDigits(s: string): (n: nat)
    ensures n <= |s|
    ensures forall i :: 0 <= i < n ==> IsDigit(s[i])
    ensures n < |s| ==> !IsDigit(s[n])
    decreases |s|
  {
    if |s| > 0 && IsDigit(s[0]) then 1 + LeadingDigits(s[1..]) else 0
  }

  predicate AllDigits(s: string) {
    forall i :: 0 <= i < |s| ==> IsDigit(s[i])
  }

  /** The value of a string of decimal digits. */
  function DigitsValue(d: string): nat
    requires AllDigits(d)
    decreases |d|
  {
    if |d| == 0 then 0
    else DigitsValue(d[..|d| - 1]) * 10 + (d[|d| - 1] as int - '0' as int)
  }

  /** Digit strings read positionally: the left part counts in units of
      ten to the length of the right part. */
  lemma {:induction false} DigitsValueAppend(a: string, b: string)
    requires AllDigits(a) && AllDigits(b)
    ensures AllDigits(a + b)
    ensures DigitsValue(a + b) == DigitsValue(a) * Pow10(|b|) + DigitsValue(b)
    decreases |b|
  {
    if |b| == 0 {
      assert a + b == a;
    } else {
      var b' := b[..|b| - 1];
      var c := b[|b| - 1] as int - '0' as int;
      DigitsValueAppend(a, b');
      assert (a + b)[..|a + b| - 1] == a + b';
      assert (a + b)[|a + b| - 1] == b[|b| - 1];
      ShiftDigit(DigitsValue(a), Pow10(|b'|), DigitsValue(b'), c);
    }
  }

  /** Shifting a digit in: plain integer algebra, kept apart so that the
      solver proves it without the digit strings of `DigitsValueAppend`
      in scope. */
  lemma ShiftDigit(x: int, p: int, y: int, c: int)
    ensures (x * p + y) * 10 + c == x * (10 * p) + (y * 10 + c)
  {
  }

  function Pow10(n: nat): (p: nat)
    ensures p > 0
  {
    if n == 0 then 1 else 10 * Pow10(n - 1)
  }

  /** The value of `intPart.fracPart`. */
  function DecimalValue(intPart: string, fracPart: string): real
    requires AllDigits(intPart) && AllDigits(fracPart)
  {
    DigitsValue(intPart) as real + DigitsValue(fracPart) as real / Pow10(|fracPart|) as real
  }

  /** An empty fraction adds nothing; kept apart so that the solver does
      not unfold `DecimalValue` inside the parsing proofs. */
  lemma DecimalValueWhole(intPart: string)
    requires AllDigits(intPart)
    ensures DecimalValue(intPart, "") == DigitsValue(intPart) as real
  {
  }

  /** The text starts a decimal literal: a digit, or a point followed by a digit. */
  predicate StartsNumber(s: string) {
    (|s| > 0 && IsDigit(s[0])) || (|s| > 1 && s[0] == '.' && IsDigit(s[1]))
  }

  /** `parseFloat` on text that holds no sign, space, exponent or letter:
      the longest prefix of the form digits, optionally followed by a point
      and more digits, read as a decimal. With no digit in that prefix
      (the empty text, a lone point, two points in front) it is NaN. */
  function ParseFloat(s: string): (r: Option<real>)
    ensures r.None? <==> !StartsNumber(s)
    ensures r.Some? ==> r.value >= 0.0
  {
    var n := LeadingDigits(s);
    var fracPart := FractionAfter(s, n);
    if n + |fracPart| == 0 then None
    else Some(DecimalValue(s[..n], fracPart))
  }

  /** The digits after a point at position `n`, or nothing when there is no
      point there. */
  function FractionAfter(s: string, n: nat): (f: string)
    requires n <= |s|
    ensures AllDigits(f)
    ensures |f| > 0 <==> n + 1 < |s| && s[n] == '.' && IsDigit(s[n + 1])
  {
    if n < |s| && s[n] == '.' then s[n + 1..][..LeadingDigits(s[n + 1..])] else []
  }

  /** The numeric value JavaScript reads from a store's display price. */
  function PriceValue(price: string): (r: Option<real>)
    ensures r.Some? ==> r.value >= 0.0
    ensures (forall i :: 0 <= i < |price| ==> !IsDigit(price[i])) ==> r.None?
  {
    CleanKeepsPriceChars(price);
    var cleaned := Clean(price);
    assert forall c :: c in cleaned ==> c in price by {
      SubseqElems(cleaned, price);
    }
    ParseFloat(cleaned)
  }

  /** A run of digits ends where the first non-digit starts. */
  lemma {:induction false} LeadingDigitsOf(d: string, t: string)
    requires AllDigits(d)
    requires |t| == 0 || !IsDigit(t[0])
    ensures LeadingDigits(d + t) == |d|
    decreases |d|
  {
    if |d| > 0 {
      assert (d + t)[1..] == d[1..] + t;
      LeadingDigitsOf(d[1..], t);
    } else {
      assert d + t == t;
    }
  }

  /** Digits, a point, digits, and then anything that is not a digit. On
      cleaned text that rest is empty or starts with a second point, and
      `parseFloat` reads the decimal and ignores the rest. */
  lemma ParseFloatDecimal(intPart: string, fracPart: string, tail: string)
    requires AllDigits(intPart) && AllDigits(fracPart)
    requires |intPart| + |fracPart| > 0
    requires |tail| == 0 || !IsDigit(tail[0])
    ensures ParseFloat(intPart + "." + fracPart + tail) == Some(DecimalValue(intPart, fracPart))
  {
    var s := intPart + "." + fracPart + tail;
    assert s == intPart + ("." + fracPart + tail);
    LeadingDigitsOf(intPart, "." + fracPart + tail);
    assert s[..|intPart|] == intPart;
    assert s[|intPart| + 1..] == fracPart + tail;
    LeadingDigitsOf(fracPart, tail);
    assert (fracPart + tail)[..|fracPart|] == fracPart;
  }

  /** Digits followed by the end of the text or a character that is neither
      a digit nor a point. On cleaned text that is the end of the text,
      and `parseFloat` reads the integer. */
  lemma ParseFloatInteger(intPart: string, tail: string)
    requires AllDigits(intPart) && |intPart| > 0
    requires |tail| == 0 || !IsPriceChar(tail[0])
    ensures ParseFloat(intPart + tail) == Some(DigitsValue(intPart) as real)
  {
    var s := intPart + tail;
    LeadingDigitsOf(intPart, tail);
    assert s[..|intPart|] == intPart;
    assert FractionAfter(s, |intPart|) == [];
    DecimalValueWhole(intPart);
  }

  /** The decimal rendering of a natural number, without leading zeros. */
  function NatToDigits(n: nat): (d: string)
    ensures AllDigits(d) && |d| > 0
    decreases n
  {
    var last := ['0' + (n % 10) as char];
    if n < 10 then last else NatToDigits(n / 10) + last
  }

  lemma {:induction false} DigitsValueOfNat(n: nat)
    ensures DigitsValue(NatToDigits(n)) == n
    decreases n
  {
    var d := NatToDigits(n);
    if n >= 10 {
      DigitsValueOfNat(n / 10);
      assert d[..|d| - 1] == NatToDigits(n / 10);
    }
  }

  /** Round trip: `parseFloat` reads back every whole number written in
      decimal. */
  lemma ParseFloatNat(n: nat)
    ensures ParseFloat(NatToDigits(n)) == Some(n as real)
  {
    DigitsValueOfNat(n);
    ParseFloatInteger(NatToDigits(n), "");
    assert NatToDigits(n) + "" == NatToDigits(n);
  }

  /** Cleaning works character by character, so it splits over concatenation. */
  lemma CleanAppend(a: string, b: string)
    ensures Clean(a + b) == Clean(a) + Clean(b)
  {
    FilterAppend(a, b, IsPriceChar);
  }

  /** Text made only of digits and points is already clean. */
  lemma CleanOfPriceChars(s: string)
    requires forall i :: 0 <= i < |s| ==> IsPriceChar(s[i])
    ensures Clean(s) == s
  {
    FilterAllPass(s, IsPriceChar);
  }

  /** Text with no digit and no point cleans to nothing. */
  lemma CleanOfSymbols(s: string)
    requires forall i :: 0 <= i < |s| ==> !IsPriceChar(s[i])
    ensures Clean(s) == ""
  {
    CleanKeepsPriceChars(s);
  }

  /** A dollar price: the currency sign is dropped and the decimal read. */
  lemma DollarPrice()
    ensures PriceValue("$10.00") == Some(10.0)
  {
    CleanDollar();
    ParseTen();
  }

  /** Any price written as a dollar sign, whole dollars and ".00" reads as
      that number of dollars. */
  lemma WholeDollarPrice(d: string)
    requires AllDigits(d) && |d| > 0
    ensures PriceValue("$" + d + ".00") == Some(DigitsValue(d) as real)
  {
    CleanWholeDollar(d);
    ParseWholeDollar(d);
  }

  lemma TwentyDollars()
    ensures PriceValue("$20.00") == Some(20.0)
  {
    WholeDollarPrice("20");
    assert "$" + "20" + ".00" == "$20.00";
    assert DigitsValue("20") == 20;
  }

  lemma ZeroDollars()
    ensures PriceValue("$0.00") == Some(0.0)
  {
    WholeDollarPrice("0");
    assert "$" + "0" + ".00" == "$0.00";
    assert DigitsValue("0") == 0;
  }

  lemma FiveDollars()
    ensures PriceValue("$5.00") == Some(5.0)
  {
    WholeDollarPrice("5");
    assert "$" + "5" + ".00" == "$5.00";
    assert DigitsValue("5") == 5;
  }

  lemma CleanWholeDollar(d: string)
    requires AllDigits(d)
    ensures Clean("$" + d + ".00") == d + ".00"
  {
    var body := d + ".00";
    forall i | 0 <= i < |body| ensures IsPriceChar(body[i]) {
      if i < |d| { assert body[i] == d[i]; }
    }
    CleanOfPriceChars(body);
    CleanOfSymbols("$");
    CleanAppend("$", body);
    assert "$" + d + ".00" == "$" + body;
    assert "" + body == body;
  }

  lemma ParseWholeDollar(d: string)
    requires AllDigits(d) && |d| > 0
    ensures ParseFloat(d + ".00") == Some(DigitsValue(d) as real)
  {
    ZeroCents(d);
    ZeroCentsText(d);
    ParseFloatDecimal(d, "00", "");
  }

  lemma ZeroCents(d: string)
    requires AllDigits(d)
    ensures DecimalValue(d, "00") == DigitsValue(d) as real
  {
    assert DigitsValue("00") == 0;
    assert Pow10(1) == 10;
    assert Pow10(|"00"|) == 100;
  }

  lemma ZeroCentsText(d: string)
    ensures d + ".00" == d + "." + "00" + ""
  {
    AppendAssoc(d, ".", "00");
    assert "." + "00" == ".00";
  }

  lemma CleanDollar()
    ensures Clean("$10.00") == "10.00"
  {
    assert "$10.00" == "$" + "10.00";
    CleanOfSymbols("$");
    CleanOfPriceChars("10.00");
    CleanAppend("$", "10.00");
    assert "" + "10.00" == "10.00";
  }

  lemma ParseTen()
    ensures ParseFloat("10.00") == Some(10.0)
  {
    assert DigitsValue("10") == 10;
    assert DigitsValue("00") == 0;
    assert DecimalValue("10", "00") == 10.0;
    assert "10.00" == "10" + "." + "00" + "";
    ParseFloatDecimal("10", "00", "");
  }

  /** A US-formatted price with a thousands separator reads as intended,
      only because the comma is stripped like any other symbol. */
  lemma ThousandsSeparatorPrice()
    ensures PriceValue("$1,234.56") == Some(1234.56)
  {
    CleanThousands();
    ParseThousands();
  }

  lemma CleanThousands()
    ensures Clean("$1,234.56") == "1234.56"
  {
    assert "$1,234.56" == "$" + ("1" + ("," + "234.56"));
    CleanOfSymbols("$");
    CleanOfSymbols(",");
    CleanOfPriceChars("1");
    CleanOfPriceChars("234.56");
    CleanAppend("$", "1" + ("," + "234.56"));
    CleanAppend("1", "," + "234.56");
    CleanAppend(",", "234.56");
    assert "" + ("1" + ("" + "234.56")) == "1234.56";
  }

  lemma ParseThousands()
    ensures ParseFloat("1234.56") == Some(1234.56)
  {
    assert Pow10(1) == 10;
    assert Pow10(2) == 100;
    assert DigitsValue("12") == 12;
    assert DigitsValue("34") == 34;
    assert "1234" == "12" + "34";
    DigitsValueAppend("12", "34");
    assert DigitsValue("1234") == 1234;
    assert DigitsValue("56") == 56;
    assert DecimalValue("1234", "56") == 1234.56;
    assert "1234.56" == "1234" + "." + "56" + "";
    ParseFloatDecimal("1234", "56", "");
  }

  /** A European-formatted price is misread: the comma is stripped and the
      thousands point is taken as the decimal point. */
  lemma EuropeanPriceMisread()
    ensures PriceValue("1.234,56") == Some(1.23456)
  {
    CleanEuropean();
    ParseEuropean();
  }

  lemma CleanEuropean()
    ensures Clean("1.234,56") == "1.23456"
  {
    assert "1.234,56" == "1.234" + ("," + "56");
    CleanOfSymbols(",");
    CleanOfPriceChars("1.234");
    CleanOfPriceChars("56");
    CleanAppend("1.234", "," + "56");
    CleanAppend(",", "56");
    assert "1.234" + ("" + "56") == "1.23456";
  }

  lemma ParseEuropean()
    ensures ParseFloat("1.23456") == Some(1.23456)
  {
    assert "234" == "2" + "34";
    assert DigitsValue("2") == 2 && DigitsValue("34") == 34 && Pow10(2) == 100;
    DigitsValueAppend("2", "34");
    assert DigitsValue("234") == 234;
    assert "23456" == "234" + "56";
    DigitsValueAppend("234", "56");
    assert DigitsValue("23456") == 23456;
    assert DigitsValue("1") == 1;
    assert Pow10(5) == 100000;
    assert DecimalValue("1", "23456") == 1.23456;
    assert "1.23456" == "1" + "." + "23456" + "";
    ParseFloatDecimal("1", "23456", "");
  }
}

=== FILE: quotes.dfy ===
/** The comparison payload: a JSON object from store name to that store's
    quote. A JavaScript object is modelled by its entries in enumeration
    order, which is the order `Object.values` and `Object.entries` use. */
module Quotes {

  /** One store's answer: the price as display text (for example
      "$19.99") and a link to the listing. */
  datatype Quote = Quote(price: string, url: string)

  datatype Entry = Entry(store: string, quote: Quote)

  type Results = seq<Entry>

  /** `Object.keys(results).length > 0`: the guard on both the store cards
      and the margin line. */
  predicate HasResults(results: Results) {
    |results| > 0
  }
}

=== FILE: seqs.dfy ===
/** Sequence vocabulary shared by the history and price models: duplicate
    freedom, order-preserving subsequences, filtering and JavaScript's
    `slice(0, n)`. Recursive definitions peel the LAST element, which matches
    the way `Set` insertion and `replace` both extend their output at the end. */
module Seqs {

  /** No element occurs twice. */
  predicate NoDup<T(==)>(s: seq<T>) {
    forall i, j :: 0 <= i < j < |s| ==> s[i] != s[j]
  }

  /** `a` is obtained from `b` by deleting elements, keeping relative order. */
  predicate Subseq<T(==)>(a: seq<T>, b: seq<T>)
    decreases |b|
  {
    if |a| == 0 then true
    else if |b| == 0 then false
    else (a[|a| - 1] == b[|b| - 1] && Subseq(a[..|a| - 1], b[..|b| - 1]))
         || Subseq(a, b[..|b| - 1])
  }

  lemma {:induction false} SubseqRefl<T>(s: seq<T>)
    ensures Subseq(s, s)
    decreases |s|
  {
    if |s| > 0 {
      SubseqRefl(s[..|s| - 1]);
    }
  }

  /** Every element of a subsequence is an element of the whole, and a
      subsequence is never longer. */
  lemma {:induction false} SubseqElems<T>(a: seq<T>, b: seq<T>)
    requires Subseq(a, b)
    ensures |a| <= |b|
    ensures forall x :: x in a ==> x in b
    decreases |b|
  {
    if |a| > 0 {
      var b' := b[..|b| - 1];
      assert b == b' + [b[|b| - 1]];
      if a[|a| - 1] == b[|b| - 1] && Subseq(a[..|a| - 1], b') {
        SubseqElems(a[..|a| - 1], b');
        assert a == a[..|a| - 1] + [a[|a| - 1]];
      } else {
        SubseqElems(a, b');
      }
    }
  }

  lemma {:induction false} SubseqTrans<T>(a: seq<T>, b: seq<T>, c: seq<T>)
    requires Subseq(a, b) && Subseq(b, c)
    ensures Subseq(a, c)
    decreases |c|
  {
    if |a| == 0 {
    } else {
      assert |b| > 0 && |c| > 0;
      var c' := c[..|c| - 1];
      if Subseq(b, c') {
        SubseqTrans(a, b, c');
      } else {
        var b' := b[..|b| - 1];
        assert b[|b| - 1] == c[|c| - 1] && Subseq(b', c');
        if a[|a| - 1] == b[|b| - 1] && Subseq(a[..|a| - 1], b') {
          SubseqTrans(a[..|a| - 1], b', c');
        } else {
          SubseqTrans(a, b', c');
        }
      }
    }
  }

  /** Every prefix is a subsequence. */
  lemma {:induction false} PrefixIsSubseq<T>(s: seq<T>, k: nat)
    requires k <= |s|
    ensures Subseq(s[..k], s)
    decreases |s| - k
  {
    if k == |s| {
      assert s[..k] == s;
      SubseqRefl(s);
    } else {
      var s' := s[..|s| - 1];
      PrefixIsSubseq(s', k);
      assert s'[..k] == s[..k];
    }
  }

  /** A subsequence of a duplicate-free sequence is duplicate-free. */
  lemma {:induction false} SubseqNoDup<T>(a: seq<T>, b: seq<T>)
    requires Subseq(a, b) && NoDup(b)
    ensures NoDup(a)
    decreases |b|
  {
    if |a| > 0 {
      var b' := b[..|b| - 1];
      assert NoDup(b');
      if a[|a| - 1] == b[|b| - 1] && Subseq(a[..|a| - 1], b') {
        var a' := a[..|a| - 1];
        SubseqNoDup(a', b');
        SubseqElems(a', b');
        assert b[|b| - 1] !in b';
        assert a == a' + [a[|a| - 1]];
      } else {
        SubseqNoDup(a, b');
      }
    }
  }

  /** JavaScript `s.slice(0, n)`: the first `n` elements, or all of `s`
      when it is shorter. */
  function Take<T>(s: seq<T>, n: nat): (r: seq<T>)
    ensures |r| <= n && |r| <= |s|
    ensures |s| <= n ==> r == s
    ensures n <= |s| ==> |r| == n
    ensures r == s[..|r|]
  {
    if |s| <= n then s else s[..n]
  }

  /** The elements of `s` that satisfy `p`, in their original order. */
  function Filter<T(==,!new)>(s: seq<T>, p: T -> bool): (r: seq<T>)
    ensures forall i :: 0 <= i < |r| ==> p(r[i])
    ensures |r| <= |s|
    decreases |s|
  {
    if |s| == 0 then []
    else Filter(s[..|s| - 1], p) + if p(s[|s| - 1]) then [s[|s| - 1]] else []
  }

  /** Filtering keeps every passing element as often as it occurs, and
      nothing else. */
  lemma {:induction false} FilterCount<T(!new)>(s: seq<T>, p: T -> bool, x: T)
    ensures multiset(Filter(s, p))[x] == if p(x) then multiset(s)[x] else 0
    decreases |s|
  {
    if |s| > 0 {
      var s' := s[..|s| - 1];
      var z := s[|s| - 1];
      FilterCount(s', p, x);
      assert s == s' + [z];
      assert multiset(s)[x] == multiset(s')[x] + multiset([z])[x];
    }
  }

  /** Filtering keeps order: its result is a subsequence of its input. */
  lemma {:induction false} FilterSubseq<T(!new)>(s: seq<T>, p: T -> bool)
    ensures Subseq(Filter(s, p), s)
    decreases |s|
  {
    if |s| > 0 {
      var s' := s[..|s| - 1];
      var x := s[|s| - 1];
      FilterSubseq(s', p);
      var r := Filter(s, p);
      if p(x) {
        assert r[..|r| - 1] == Filter(s', p);
      } else {
        assert r == Filter(s', p);
      }
    }
  }

  /** Filtering a sequence whose every element already passes is the identity. */
  lemma {:induction false} FilterAllPass<T(!new)>(s: seq<T>, p: T -> bool)
    requires forall i :: 0 <= i < |s| ==> p(s[i])
    ensures Filter(s, p) == s
    decreases |s|
  {
    if |s| > 0 {
      var s' := s[..|s| - 1];
      FilterAllPass(s', p);
      assert s == s' + [s[|s| - 1]];
    }
  }

  /** Filtering distributes over concatenation. */
  lemma {:induction false} FilterAppend<T(!new)>(a: seq<T>, b: seq<T>, p: T -> bool)
    ensures Filter(a + b, p) == Filter(a, p) + Filter(b, p)
    decreases |b|
  {
    if |b| == 0 {
      assert a + b == a;
    } else {
      var b' := b[..|b| - 1];
      var x := b[|b| - 1];
      var tail := if p(x) then [x] else [];
      FilterAppend(a, b', p);
      var ab := a + b;
      assert ab[..|ab| - 1] == a + b';
      assert ab[|ab| - 1] == x;
      calc {
        Filter(ab, p);
        Filter(a + b', p) + tail;
        Filter(a, p) + Filter(b', p) + tail;
        Filter(a, p) + (Filter(b', p) + tail);
      }
    }
  }

  /** `s` with every occurrence of `x` deleted. */
  function Remove<T(==,!new)>(s: seq<T>, x: T): (r: seq<T>)
    ensures forall y :: y in r <==> y in s && y != x
    ensures Subseq(r, s)
  {
    var p := y => y != x;
    FilterSubseq(s, p);
    var r := Filter(s, p);
    assert forall y :: y in r <==> y in s && y != x by {
      forall y
        ensures y in r <==> y in s && y != x
      {
        FilterCount(s, p, y);
        assert y in r <==> multiset(r)[y] > 0;
        assert y in s <==> multiset(s)[y] > 0;
      }
    }
    r
  }

  /** Concatenation regrouped. Stated as a lemma so that proofs about
      concrete lists can use it without the sequence axioms entering their
      context, where those are costly. */
  lemma AppendAssoc<T>(a: seq<T>, b: seq<T>, c: seq<T>)
    ensures a + b + c == a + (b + c)
  {
  }

  /** Removing from a sequence extended at the end. */
  lemma RemoveSnoc<T(!new)>(s: seq<T>, z: T, x: T)
    ensures Remove(s + [z], x) == Remove(s, x) + if z != x then [z] else []
  {
    assert (s + [z])[..|s + [z]| - 1] == s;
  }

  /** Removing the head of a duplicate-free sequence drops exactly that head. */
  lemma {:induction false} RemoveHead<T(!new)>(s: seq<T>)
    requires |s| > 0 && NoDup(s)
    ensures Remove(s, s[0]) == s[1..]
    decreases |s|
  {
    var x := s[0];
    if |s| == 1 {
      RemoveSnoc([], x, x);
      assert s == [] + [x];
      assert Remove([], x) == [];
    } else {
      var s' := s[..|s| - 1];
      var z := s[|s| - 1];
      assert NoDup(s');
      RemoveHead(s');
      assert z != x;
      RemoveSnoc(s', z, x);
      assert s == s' + [z];
      assert s[1..] == s'[1..] + [z];
    }
  }
}

=== FILE: session.dfy ===
/** The component's state and what one click on "Compare Prices" does to
    it. The request itself (`fetch`, the `response.ok` check and
    `response.json()`) is reduced to its outcome: the decoded payload, or a
    failure of any kind. React's asynchronous, batched state updates are
    collapsed into one step from the state before the click to the state
    after the request settles. */
module Session {
  import opened Wrappers
  import opened Quotes
  import SearchHistory
  import ProfitMargin

  /** The `useState` hooks the search touches. */
  datatype State = State(
    query: string,
    results: Results,
    history: seq<string>,
    loading: bool,
    error: string)

  /** How the request settled. */
  datatype FetchOutcome = Ok(data: Results) | Fail

  /** The one message shown for every failed request. */
  const FetchErrorMessage: string := "Error fetching comparison data. Please try again later."

  /** The state when the component mounts, given the history read back
      from storage (an empty list when nothing was saved). */
  function Mount(savedHistory: seq<string>): State {
    State("", [], savedHistory, false, "")
  }

  /** Typing in the search box. */
  function EditQuery(s: State, text: string): State {
    s.(query := text)
  }

  /** The request has been sent: loading, and any earlier error cleared. */
  function StartFetch(s: State): (r: State)
    ensures r.loading && r.error == ""
    ensures r.query == s.query && r.results == s.results && r.history == s.history
  {
    s.(loading := true, error := "")
  }

  /** The request has settled. On success the payload replaces the results
      wholesale and the query is rotated into the history; on failure the
      results and the history stay as they were and the fixed message is
      shown. Loading ends either way. */
  function SettleFetch(s: State, outcome: FetchOutcome): State {
    match outcome
    case Ok(data) =>
      s.(results := data, history := SearchHistory.Rotate(s.history, s.query), loading := false)
    case Fail =>
      s.(error := FetchErrorMessage, loading := false)
  }

  /** `fetchComparison()`: start, then settle with the given outcome. */
  function FetchComparison(s: State, outcome: FetchOutcome): (r: State)
    ensures !r.loading && r.query == s.query
    ensures outcome.Fail? ==>
      r.results == s.results && r.history == s.history && r.error == FetchErrorMessage
    ensures outcome.Ok? ==>
      && r.results == outcome.data
      && r.error == ""
      && r.history == SearchHistory.Rotate(s.history, s.query)
      && |r.history| <= SearchHistory.MaxEntries
      && |r.history| > 0 && r.history[0] == s.query
      && forall x :: x in r.history ==> x == s.query || x in s.history
  {
    SearchHistory.RotateBoundedHead(s.history, s.query);
    SearchHistory.RotateKeepsOrder(s.history, s.query);
    SettleFetch(StartFetch(s), outcome)
  }

  /** The margin line: shown only when the results hold a store, and then
      showing whatever number `calculateProfitMargin` yields. */
  function ShownMargin(s: State): (r: Option<ProfitMargin.MarginValue>)
    ensures r.Some? <==> HasResults(s.results)
    ensures r.Some? ==> (r.value.Finite? <==> ProfitMargin.AllPricesPositive(s.results))
  {
    if HasResults(s.results) then
      ProfitMargin.MarginKind(ProfitMargin.PriceValues(s.results));
      Some(ProfitMargin.CalculateProfitMargin(s.results))
    else None
  }

  /** Whatever history was loaded from storage, it is valid after the first
      successful search, and a valid history stays valid through any search. */
  lemma FetchKeepsHistoryValid(s: State, outcome: FetchOutcome)
    ensures outcome.Ok? ==> SearchHistory.Valid(FetchComparison(s, outcome).history)
    ensures SearchHistory.Valid(s.history) ==> SearchHistory.Valid(FetchComparison(s, outcome).history)
  {
    SearchHistory.RotateBoundedHead(s.history, s.query);
  }

  /** A failed search leaves no trace a later successful one can see. */
  lemma FailThenOk(s: State, data: Results)
    ensures FetchComparison(FetchComparison(s, Fail), Ok(data)) == FetchComparison(s, Ok(data))
  {
  }

  /** Repeating a successful search for the same query leaves the history
      as the first search left it. */
  lemma RepeatSearchKeepsHistory(s: State, d1: Results, d2: Results)
    ensures FetchComparison(FetchComparison(s, Ok(d1)), Ok(d2)).history
         == FetchComparison(s, Ok(d1)).history
  {
    SearchHistory.RotateIdempotent(s.history, s.query);
  }

  /** Searching "laptop" after "phone" puts it in front; searching "phone"
      again moves it back to the front instead of adding a second copy. */
  lemma LaptopPhoneScenario(d1: Results, d2: Results)
    ensures var s1 := FetchComparison(EditQuery(Mount(["phone"]), "laptop"), Ok(d1));
            && s1.history == ["laptop", "phone"]
            && FetchComparison(EditQuery(s1, "phone"), Ok(d2)).history == ["phone", "laptop"]
  {
    SearchHistory.NewQueryGoesFirst();
    SearchHistory.RepeatedQueryMovesToFront();
  }
}

=== FILE: wrappers.dfy ===
/** The Option type the model uses for values JavaScript would report as
    missing or as NaN. */
module Wrappers {

  datatype Option<+T> = None | Some(value: T)
}
